=== FILE: README.md ===
# Gallery shuffle, news carousel and date format of the woshite-n-site page script

This project models, in Dafny, the three pieces of sequential logic in the
site's page script `js/main.js`. Everything else in that script is browser
glue and is not modelled.

- **Gallery sample** (module `Gallery`, `gallery.dfy`). `shuffleArray` copies
  the item array and runs the Fisher-Yates loop from the last index down
  to 1. Each step swaps position `i` with `j = Math.floor(Math.random() * (i + 1))`.
  `loadGallery` and `refreshGallery` show the first `GALLERY_DISPLAY_COUNT` (6)
  elements of the result. `Math.random` becomes an explicit sequence of
  draws, each a real in [0, 1): the k-th call of a run returns `draws[k]`.
  `FisherYates` is the shuffle as a pure function of the input and the draws.
  The method `ShuffleArray` runs the loop on a copy of the input and is
  proved equal to it. The lemmas show the shuffle is a permutation, and that the selection
  takes `min(6, n)` distinct input positions.
- **News carousel** (module `Carousel`, `carousel.dfy`). The state holds the
  module-level `newsCurrentIndex` and the number of loaded items. It also
  holds the page state that `goToSlide`, `updateCarouselIndicators` and
  `updateCarouselButtons` write: the track offset, the active flag of each
  indicator dot, and the prev/next `disabled` flags. `LoadNews` builds the
  state `loadNews` leaves. `Step` is one click on prev, next or a dot.
  `Valid` is the carousel invariant. The lemmas show that every run of
  clicks keeps it. They also show that, once items are loaded, the derived
  state is fixed by the index and a button is disabled exactly when clicking
  it would change nothing.
- **Date format** (module `NewsDate`, `news_date.dfy`). `formatDate`
  replaces every `-` with `.`.

## Model

| member | source | states |
|---|---|---|
| Gallery.SwapPartner | js/main.js:53 | `Math.floor(r * (i + 1))` for a draw `r` in [0, 1) is at most `i`, so both swap indices are in bounds |
| Gallery.SwapPartnerCovers | js/main.js:53 | every `j` in [0, i] is produced by some legal draw, so the partner choice is exactly "any j in [0, i]" |
| Gallery.Swap | js/main.js:54 | the destructuring swap keeps the length, puts the old `s[j]` at `i` and the old `s[i]` at `j`, and leaves every other position alone |
| Gallery.SwapPermutes | js/main.js:54 | a swap is a permutation: the multiset of elements is unchanged |
| Gallery.Steps | js/main.js:52-55 | the loop steps `i` down to 1, one draw each, keep the length of the array |
| Gallery.FisherYates | js/main.js:50-57 | the whole shuffle of an `n`-element input, using `n - 1` draws, has length `n` |
| Gallery.ShuffleArray | js/main.js:50-57 | the copy-and-swap loop returns a result with the input's length and multiset of elements (a permutation), equal to `FisherYates` of the input; the input is a value, so the argument is not changed |
| Gallery.ShuffleNewArray | js/main.js:50-57 | on a JavaScript-style array, the result is a freshly allocated array holding a permutation of the argument's elements, equal to `FisherYates` of them; without a `modifies` clause the argument cannot be changed |
| Gallery.ShuffleTurn | js/main.js:52-55 | one turn of the loop keeps the elements and leaves the remaining steps leading to the same shuffle |
| Gallery.StepsPermutes | js/main.js:52-55 | any run of loop steps is a permutation of its input (multiset equality) |
| Gallery.FisherYatesPermutes | js/main.js:50-57 | the shuffle has the input's length and multiset: it is a permutation |
| Gallery.StepsCommutesWithPick | js/main.js:52-55 | shuffling a list of positions and then reading the items at them gives the same result as shuffling the items: the shuffle moves positions and never looks at the elements |
| Gallery.StepsKeepsDistinct | js/main.js:52-55 | a list without repeats stays without repeats under the shuffle |
| Gallery.Selection | js/main.js:203 | `shuffleArray(items).slice(0, 6)` has length `min(6, n)` |
| Gallery.SelectGallery | js/main.js:31 | the selected cards number `min(6, n)`, are drawn from the items without replacement (sub-multiset), and are the first `min(6, n)` elements of the shuffle |
| Gallery.SelectionWithoutReplacement | js/main.js:203 | the selection holds no item more often than the input does |
| Gallery.SelectionTakesDistinctPositions | js/main.js:31 | the `min(6, n)` selected cards come from pairwise different input positions, which the same draws pick when applied to the positions themselves |
| Carousel.Startup | js/main.js:229-230 | before loading, the carousel has no items, index 0, and the buttons as the markup has them, and it satisfies the invariant |
| Carousel.LoadNews | js/main.js:247-270 | (for a load in which every card renders) a failed or empty fetch leaves the startup state; otherwise the count is the item count, index 0, only dot 0 is active, prev is disabled, next is disabled iff there is one item, and the invariant holds |
| Carousel.UpdateIndicators | js/main.js:329-334 | each dot is active iff its position is the index, so exactly one is active when the index is in range and none otherwise; nothing else changes |
| Carousel.UpdateButtons | js/main.js:339-349 | prev disabled iff index is 0, next disabled iff index >= count - 1, so a single item disables both; nothing else changes |
| Carousel.GoToSlide | js/main.js:313-324 | an out-of-range target leaves the whole state unchanged; a valid target `i` becomes the index, the offset is `i * 100` percent, only dot `i` is active, prev disabled iff `i = 0`, next disabled iff `i` is the last index |
| Carousel.OnlyOneActive | js/main.js:331-333 | a dot row whose only active dot is `i` counts exactly one active dot |
| Carousel.ExactlyOneDotActive | js/main.js:329-334 | in a valid carousel with items, the current dot is active and it is the only one |
| Carousel.Step | js/main.js:358-368 | prev and next call `goToSlide(index - 1)` and `goToSlide(index + 1)`: the click changes nothing exactly when that target is out of range, and otherwise moves the index by one; dot `k` (created at line 265) moves to `k`; the count never changes |
| Carousel.StepKeepsValid | js/main.js:354-369 | a prev, next or dot click keeps the invariant `0 <= index < count` with its derived state |
| Carousel.RunKeepsValid | js/main.js:358-368 | any sequence of clicks keeps the invariant and the item count |
| Carousel.ReachableIsValid | js/main.js:235-275 | after a load in which every card rendered (or the fetch failed or was empty) and any clicks, the invariant holds and a loaded carousel's index lies in [0, count) |
| Carousel.LoadNewsRenderThrows | js/main.js:247-274 | when a card throws while rendering, `newsItems` keeps the `n` items assigned at line 247 but no dot exists and the buttons keep their markup flags; the state is valid only when `n = 0` |
| Carousel.RunKeepsDotlessNavigable | js/main.js:313-324 | after a render failure, any clicks keep the index in [0, count) with offset `index * 100` and leave no dots |
| Carousel.RenderThrowLeavesTrackNavigable | js/main.js:313-320 | with two or more items and a failed render, the state is not valid, and when the markup leaves next enabled a next click still moves the placeholder track to offset 100 with no dot active |
| Carousel.EmptyIgnoresClicks | js/main.js:313-314 | with no items loaded, every click sequence is ignored |
| Carousel.DerivedFromIndex | js/main.js:316-323 | once items are loaded, two valid states with the same count and index are equal: offset, dots and buttons are derived from the index |
| Carousel.DisabledIffNoOp | js/main.js:339-349 | in a valid carousel with items, prev is disabled iff a prev click changes nothing, and next is disabled iff a next click changes nothing |
| Carousel.PrevNextInverse | js/main.js:358-368 | away from the first item prev then next restores the state; away from the last, next then prev does |
| Carousel.NextClicksStopAtLast | js/main.js:364-368 | `m` next clicks from index `i` reach `min(i + m, count - 1)`: stepping stops at the last item and never wraps |
| NewsDate.FormatDate | js/main.js:306-308 | the result has the input's length, each `-` becomes `.`, every other character stays, and no `-` remains |
| NewsDate.FormatIsoDate | js/main.js:303-308 | a `YYYY-MM-DD` date becomes the `YYYY.MM.DD` date with the same digits |
| NewsDate.FormatDateRoundTrip | js/main.js:307 | for a date without dots, turning `.` back into `-` recovers the input |
| NewsDate.FormatDateIdempotent | js/main.js:307 | formatting twice is the same as formatting once |
| NewsDate.FormatDateExample | js/main.js:306-308 | `2024-01-05` is shown as `2024.01.05` |

## Left out

- `Math.random` is a parameter: a sequence of draws, each an exact real in [0, 1). Nothing about their distribution is modelled, so the uniformity of the shuffle is not a property here. IEEE double rounding in `Math.random() * (i + 1)` is also not modelled.
- The JavaScript arrays are modelled as Dafny sequences, which are values. `shuffleArray`'s copy `[...array]` is the assignment of the input to the result variable, and the swaps update that variable. So "the argument is not modified" holds by construction. `ShuffleNewArray` gives the same shuffle an array interface. Its result is `fresh`, and it has no `modifies` clause. It copies the result of `ShuffleArray` into a new array; the loop and its proof are in `ShuffleArray`.
- The fetches in `loadGallery`, `loadNews` and `refreshGallery` are not modelled, nor is the lazy cache `galleryData`. `LoadNews` receives the outcome of the news fetch as a `Fetch` value instead. The "no items" and "could not load" placeholder texts are not modelled.
- `escapeHtml`, `createGalleryCard` and `createNewsCard` are not modelled. They build DOM nodes and rely on the browser's HTML serialisation. So is the flip-card class toggle.
- `initScrollReveal` (an IntersectionObserver) and the contact form handler (`initContactForm`, an asynchronous POST) are not modelled. Neither is the `DOMContentLoaded` wiring.
- The null checks on `#news-track`, `#carousel-indicators`, `.carousel-prev` and `.carousel-next` are not modelled. The first two make `loadNews` return before the fetch (line 238). The model assumes these elements are present. Without them the page state is not written at all.
- `updateCarouselIndicators` selects every `.carousel-indicator` in the document. The model assumes the only ones are the dots `loadNews` creates.
- The track offset is an integer percentage. Before the first `goToSlide` no transform is set, and the model represents that as offset 0, which displays the same.
- `loadNews` is modelled as running once, on the page as served. Clicks made before it finishes are ignored, as `EmptyIgnoresClicks` shows.
- Carousel.LoadNews: models a load in which every card renders, so `data.items` must be an array of items with string dates. Otherwise `createNewsCard` throws, for example when `formatDate` gets a missing date. `loadNews` also throws at line 255 when `data.items` is a truthy value without `forEach` and a non-zero `length`. `loadNews` then shows the "could not load" placeholder, but `newsItems` stays assigned (line 247). No dots are created and the buttons are not updated. That path is modelled separately as `LoadNewsRenderThrows`, for a value with a numeric length `n`. On it, the `Valid` invariant does not hold. `RenderThrowLeavesTrackNavigable` shows that, when the markup leaves next enabled, next clicks still move the placeholder track. A `data.items` whose `length` is undefined (then every non-negative target passes line 314) is not modelled.
- Carousel.Step: models the click handler being run. A browser sends no click to a disabled button, and the model does not track that. On `Valid` states this changes nothing. With items loaded, a disabled button is exactly a click that changes nothing (`DisabledIffNoOp`). With no items, every click changes nothing anyway (`EmptyIgnoresClicks`), whatever the button flags are. It matters only on the render-failure path, where the buttons keep their markup flags.

=== FILE: carousel.dfy ===
/** The news carousel: the module-level position `newsCurrentIndex`, the number
    of loaded items `newsItems.length`, and the page state that `goToSlide`,
    `updateCarouselIndicators` and `updateCarouselButtons` derive from them.

    The page is reduced to what those functions write: the track's
    `translateX` percentage, one active flag per indicator dot, and the
    `disabled` flags of the prev and next buttons. */
module Carousel {

  /** How the fetch of the news list in `loadNews` ended: it failed (network,
      HTTP status or JSON), or it delivered a list of `count` items. */
  datatype Fetch = Failed | Loaded(count: nat)

  /** `offset` is the magnitude of the track's translation: the track is
      shifted by `-offset%`. */
  datatype State = State(
    count: nat,
    index: int,
    offset: int,
    active: seq<bool>,
    prevDisabled: bool,
    nextDisabled: bool)

  /** A user action: a click on the prev button, the next button, or the
      indicator dot at position `dot`. */
  datatype Action = PrevClick | NextClick | DotClick(dot: nat)

  /** The button flags agree with the position: prev is disabled exactly at
      the first item, next exactly at (or past) the last. */
  predicate ButtonsAgree(s: State) {
    s.prevDisabled == (s.index == 0) && s.nextDisabled == (s.index >= s.count - 1)
  }

  /** The carousel invariant. Before any item is loaded the position is 0 and
      nothing is drawn; afterwards the position is a valid item index, the
      track shows that item, exactly its dot is active, and the buttons agree. */
  predicate Valid(s: State) {
    if s.count == 0 then
      s.index == 0 && s.offset == 0 && s.active == []
    else
      0 <= s.index < s.count
      && s.offset == s.index * 100
      && |s.active| == s.count
      && (forall k :: 0 <= k < s.count ==> (s.active[k] <==> k == s.index))
      && ButtonsAgree(s)
  }

  /** The page as served, before `loadNews` has finished: no items, position
      0, no transform, no dots, and the buttons as the markup has them. */
  function Startup(prevMarkup: bool, nextMarkup: bool): (s: State)
    ensures Valid(s) && s.count == 0 && s.index == 0
    ensures s.prevDisabled == prevMarkup && s.nextDisabled == nextMarkup
  {
    State(0, 0, 0, [], prevMarkup, nextMarkup)
  }

  /** Number of active dots. */
  function CountActive(a: seq<bool>): (n: nat)
    ensures n <= |a|
  {
    if a == [] then 0 else (if a[0] then 1 else 0) + CountActive(a[1..])
  }

  /** `updateCarouselIndicators`: each dot is active exactly when its
      position is the current index. Nothing else changes. */
  function UpdateIndicators(s: State): (r: State)
    ensures |r.active| == |s.active|
    ensures forall k :: 0 <= k < |r.active| ==> (r.active[k] <==> k == s.index)
    ensures r.(active := s.active) == s
    ensures 0 <= s.index < |s.active| ==> CountActive(r.active) == 1
    ensures !(0 <= s.index < |s.active|) ==> CountActive(r.active) == 0
  {
    var a := seq(|s.active|, k => k == s.index);
    if 0 <= s.index < |a| then
      OnlyOneActive(a, s.index);
      s.(active := a)
    else
      NoneActive(a);
      s.(active := a)
  }

  /** `updateCarouselButtons`: prev is disabled iff the index is 0; next is
      disabled iff the index is at least `count - 1`, so with a single item
      both are. Nothing else changes. */
  function UpdateButtons(s: State): (r: State)
    ensures ButtonsAgree(r)
    ensures r.(prevDisabled := s.prevDisabled, nextDisabled := s.nextDisabled) == s
    ensures s.count == 1 && s.index == 0 ==> r.prevDisabled && r.nextDisabled
  {
    s.(prevDisabled := s.index == 0, nextDisabled := s.index >= s.count - 1)
  }

  /** `goToSlide`: a target outside [0, count) is ignored; any other target
      becomes the position, the track moves to it, and the dots and buttons
      are brought up to date. */
  function GoToSlide(s: State, i: int): (r: State)
    ensures (i < 0 || i >= s.count) ==> r == s
    ensures 0 <= i < s.count ==>
              r.count == s.count && r.index == i && r.offset == i * 100
              && |r.active| == |s.active|
              && (forall k :: 0 <= k < |r.active| ==> (r.active[k] <==> k == i))
              && (r.prevDisabled <==> i == 0)
              && (r.nextDisabled <==> i == s.count - 1)
  {
    if i < 0 || i >= s.count then s
    else UpdateButtons(UpdateIndicators(s.(index := i, offset := i * 100)))
  }

  /** The click handlers: prev and next step by one through `goToSlide`, and
      dot `k` jumps to slide `k`. A click either changes nothing or moves
      the position to its target, which then lies in [0, count). */
  function Step(s: State, a: Action): (r: State)
    ensures r.count == s.count
    ensures r == s || 0 <= r.index < s.count
    ensures a.PrevClick? ==> (r == s <==> s.index - 1 < 0 || s.index - 1 >= s.count)
    ensures a.PrevClick? && r != s ==> r.index == s.index - 1
    ensures a.NextClick? ==> (r == s <==> s.index + 1 < 0 || s.index + 1 >= s.count)
    ensures a.NextClick? && r != s ==> r.index == s.index + 1
    ensures a.DotClick? && a.dot < s.count ==> r.index == a.dot
  {
    match a
    case PrevClick => GoToSlide(s, s.index - 1)
    case NextClick => GoToSlide(s, s.index + 1)
    case DotClick(k) => GoToSlide(s, k)
  }

  /** The actions applied one after another. */
  function Run(s: State, actions: seq<Action>): State
    decreases |actions|
  {
    if actions == [] then s else Run(Step(s, actions[0]), actions[1..])
  }

  /** `loadNews` on the page as served. A failed fetch or an empty list
      leaves the carousel without items; otherwise one dot per item is drawn
      with dot 0 active, and the buttons are updated for position 0. The
      track is not moved. */
  function LoadNews(prevMarkup: bool, nextMarkup: bool, f: Fetch): (s: State)
    ensures Valid(s)
    ensures s.index == 0 && s.offset == 0
    ensures f.Failed? || f.count == 0 ==> s == Startup(prevMarkup, nextMarkup)
    ensures f.Loaded? && f.count > 0 ==>
              s.count == f.count && s.active[0] && CountActive(s.active) == 1
              && s.prevDisabled && (s.nextDisabled <==> f.count == 1)
  {
    match f
    case Failed => Startup(prevMarkup, nextMarkup)
    case Loaded(n) =>
      if n == 0 then Startup(prevMarkup, nextMarkup)
      else
        var a := seq(n, k => k == 0);
        OnlyOneActive(a, 0);
        UpdateButtons(State(n, 0, 0, a, prevMarkup, nextMarkup))
  }

  lemma {:induction false} NoneActive(a: seq<bool>)
    requires forall k :: 0 <= k < |a| ==> !a[k]
    ensures CountActive(a) == 0
    decreases |a|
  {
    if a != [] {
      NoneActive(a[1..]);
    }
  }

  /** A dot row whose only active dot is `i` has exactly one active dot. */
  lemma {:induction false} OnlyOneActive(a: seq<bool>, i: int)
    requires 0 <= i < |a|
    requires forall k :: 0 <= k < |a| ==> (a[k] <==> k == i)
    ensures CountActive(a) == 1
    decreases |a|
  {
    if i == 0 {
      NoneActive(a[1..]);
    } else {
      OnlyOneActive(a[1..], i - 1);
    }
  }

  /** In a carousel with items, exactly one dot is active: the current one. */
  lemma ExactlyOneDotActive(s: State)
    requires Valid(s) && s.count > 0
    ensures s.active[s.index]
    ensures CountActive(s.active) == 1
  {
    OnlyOneActive(s.active, s.index);
  }

  /** Every click keeps the carousel invariant. */
  lemma StepKeepsValid(s: State, a: Action)
    requires Valid(s)
    ensures Valid(Step(s, a))
  {
  }

  /** Any sequence of clicks keeps the carousel invariant, so the position
      stays in [0, count) (or at 0 while nothing is loaded). */
  lemma {:induction false} RunKeepsValid(s: State, actions: seq<Action>)
    requires Valid(s)
    ensures Valid(Run(s, actions))
    ensures Run(s, actions).count == s.count
    decreases |actions|
  {
    if actions != [] {
      StepKeepsValid(s, actions[0]);
      RunKeepsValid(Step(s, actions[0]), actions[1..]);
    }
  }

  /** Whatever the fetch delivered, as long as every news card rendered, and
      whatever the user clicked afterwards, the carousel invariant holds.
      `LoadNewsRenderThrows` is the path on which a card does not render. */
  lemma ReachableIsValid(prevMarkup: bool, nextMarkup: bool, f: Fetch, actions: seq<Action>)
    ensures Valid(Run(LoadNews(prevMarkup, nextMarkup, f), actions))
    ensures var s := Run(LoadNews(prevMarkup, nextMarkup, f), actions);
            s.count > 0 ==> 0 <= s.index < s.count
  {
    RunKeepsValid(LoadNews(prevMarkup, nextMarkup, f), actions);
  }

  /** Before anything is loaded every click is ignored. */
  lemma {:induction false} EmptyIgnoresClicks(s: State, actions: seq<Action>)
    requires s.count == 0
    ensures Run(s, actions) == s
    decreases |actions|
  {
    if actions != [] {
      EmptyIgnoresClicks(Step(s, actions[0]), actions[1..]);
    }
  }

  /** Once items are loaded, the whole carousel state is determined by the
      item count and the position: the dots, the track and the buttons are
      derived state. */
  lemma DerivedFromIndex(s: State, t: State)
    requires Valid(s) && Valid(t)
    requires s.count == t.count > 0 && s.index == t.index
    ensures s == t
  {
  }

  /** A disabled button is exactly a button whose click would change nothing:
      prev at the first item, next at the last. Out-of-range steps are
      ignored rather than clamped or wrapped. */
  lemma DisabledIffNoOp(s: State)
    requires Valid(s) && s.count > 0
    ensures s.prevDisabled <==> Step(s, PrevClick) == s
    ensures s.nextDisabled <==> Step(s, NextClick) == s
  {
  }

  /** Away from the first item, prev followed by next returns to the same
      state; away from the last, next followed by prev does. */
  lemma PrevNextInverse(s: State)
    requires Valid(s) && s.count > 0
    ensures s.index > 0 ==> Step(Step(s, PrevClick), NextClick) == s
    ensures s.index < s.count - 1 ==> Step(Step(s, NextClick), PrevClick) == s
  {
  }

  /** `m` clicks on next. */
  function NextClicks(m: nat): (actions: seq<Action>)
    ensures |actions| == m
    ensures forall k :: 0 <= k < m ==> actions[k] == NextClick
  {
    seq(m, k => NextClick)
  }

  /** Clicking next `m` times from position `i` stops at the last item:
      the position becomes `min(i + m, count - 1)`. */
  lemma {:induction false} NextClicksStopAtLast(s: State, m: nat)
    requires Valid(s) && s.count > 0
    ensures Run(s, NextClicks(m)).index ==
              if s.index + m <= s.count - 1 then s.index + m else s.count - 1
    decreases m
  {
    if m > 0 {
      var t := Step(s, NextClick);
      assert NextClicks(m)[1..] == NextClicks(m - 1);
      NextClicksStopAtLast(t, m - 1);
    }
  }

  /** `loadNews` when a news card throws while rendering: `newsItems` was
      already assigned the `n` items, the catch replaces the track with the
      placeholder, no dot has been created and the buttons keep their markup
      flags. This happens when an item's date is not a string, so that
      `formatDate` throws. */
  function LoadNewsRenderThrows(prevMarkup: bool, nextMarkup: bool, n: nat): (s: State)
    ensures s.count == n && s.index == 0 && s.offset == 0 && s.active == []
    ensures s.prevDisabled == prevMarkup && s.nextDisabled == nextMarkup
    ensures n == 0 <==> Valid(s)
  {
    State(n, 0, 0, [], prevMarkup, nextMarkup)
  }

  /** What still holds once rendering failed: there are no dots, and the
      position stays in range with the track offset following it. */
  predicate DotlessNavigable(s: State) {
    s.active == []
    && (if s.count == 0 then s.index == 0 && s.offset == 0
        else 0 <= s.index < s.count && s.offset == s.index * 100)
  }

  /** After a render failure, any sequence of clicks keeps the position in
      range and leaves the page without dots. */
  lemma {:induction false} RunKeepsDotlessNavigable(s: State, actions: seq<Action>)
    requires DotlessNavigable(s)
    ensures DotlessNavigable(Run(s, actions))
    ensures Run(s, actions).count == s.count
    decreases |actions|
  {
    if actions != [] {
      RunKeepsDotlessNavigable(Step(s, actions[0]), actions[1..]);
    }
  }

  /** With two or more items and a card that failed to render, the carousel
      is not valid. When the markup leaves the next button enabled, a next
      click passes the bounds check of `goToSlide` and moves the track, which
      now holds only the placeholder, by one full width while no dot is
      active. */
  lemma RenderThrowLeavesTrackNavigable(prevMarkup: bool, nextMarkup: bool, n: nat)
    requires n >= 2
    requires !nextMarkup
    ensures !Valid(LoadNewsRenderThrows(prevMarkup, nextMarkup, n))
    ensures var t := Step(LoadNewsRenderThrows(prevMarkup, nextMarkup, n), NextClick);
            t.index == 1 && t.offset == 100 && t.active == [] && CountActive(t.active) == 0
  {
  }
}

=== FILE: gallery.dfy ===
/** The gallery's random sample: the Fisher-Yates shuffle `shuffleArray` and the
    selection `shuffleArray(items).slice(0, GALLERY_DISPLAY_COUNT)` made by
    `loadGallery` and `refreshGallery`.

    `Math.random` is not a function of anything the program can see, so every
    value it returns becomes an explicit draw: a real in [0, 1). The k-th call
    of a run returns `draws[k]`; nothing is assumed about how the draws are
    distributed. */
module Gallery {

  /** GALLERY_DISPLAY_COUNT: how many cards the gallery shows at most. */
  const DisplayCount: nat := 6

  function Min(a: int, b: int): int {
    if a <= b then a else b
  }

  /** A value `Math.random()` can return. */
  predicate IsDraw(r: real) {
    0.0 <= r < 1.0
  }

  predicate AreDraws(draws: seq<real>) {
    forall k :: 0 <= k < |draws| ==> IsDraw(draws[k])
  }

  /** Every sequence index in `p` is below `n`. */
  predicate InRange(p: seq<nat>, n: nat) {
    forall k :: 0 <= k < |p| ==> p[k] < n
  }

  /** No element of `p` occurs twice. */
  predicate Distinct<T(==)>(p: seq<T>) {
    forall a, b :: 0 <= a < b < |p| ==> p[a] != p[b]
  }

  /** The positions 0, 1, ..., n - 1 in order. */
  function Range(n: nat): (p: seq<nat>)
    ensures |p| == n
    ensures forall k :: 0 <= k < n ==> p[k] == k
  {
    seq(n, k => k)
  }

  /** The elements of `s` at the positions `p`, in the order of `p`. */
  function Pick<T>(s: seq<T>, p: seq<nat>): (t: seq<T>)
    requires InRange(p, |s|)
    ensures |t| == |p|
    ensures forall k :: 0 <= k < |p| ==> t[k] == s[p[k]]
  {
    seq(|p|, k requires 0 <= k < |p| => s[p[k]])
  }

  /** The swap partner of step `i`: `Math.floor(r * (i + 1))`, which the
      random draw `r` places in [0, i]. */
  function SwapPartner(r: real, i: nat): (j: nat)
    requires IsDraw(r)
    ensures j <= i
  {
    var x := r * (i + 1) as real;
    ScaledDrawBelow(r, (i + 1) as real);
    x.Floor
  }

  lemma ScaledDrawBelow(r: real, d: real)
    requires IsDraw(r) && d > 0.0
    ensures 0.0 <= r * d < d
  {
  }

  /** Exchanges the elements at `i` and `j`: the destructuring assignment
      `[shuffled[i], shuffled[j]] = [shuffled[j], shuffled[i]]`. */
  function Swap<T>(s: seq<T>, i: nat, j: nat): (t: seq<T>)
    requires i < |s| && j < |s|
    ensures |t| == |s|
    ensures t[i] == s[j] && t[j] == s[i]
    ensures forall k :: 0 <= k < |s| && k != i && k != j ==> t[k] == s[k]
  {
    s[i := s[j]][j := s[i]]
  }

  /** The loop steps i, i - 1, ..., 1 of the shuffle applied to `s`; step `i`
      consumes the first of the remaining draws. */
  function Steps<T>(s: seq<T>, i: nat, draws: seq<real>): (t: seq<T>)
    requires i == 0 || i < |s|
    requires i <= |draws| && AreDraws(draws)
    ensures |t| == |s|
    decreases i
  {
    if i == 0 then s
    else Steps(Swap(s, i, SwapPartner(draws[0], i)), i - 1, draws[1..])
  }

  /** The index the shuffle loop starts from: `length - 1`, or no step at all. */
  function LastIndex(n: nat): nat {
    if n == 0 then 0 else n - 1
  }

  /** The whole shuffle of `s` as a function of the draws: one draw for each
      of the steps |s| - 1 down to 1. */
  function FisherYates<T>(s: seq<T>, draws: seq<real>): (t: seq<T>)
    requires |s| <= |draws| + 1 && AreDraws(draws)
    ensures |t| == |s|
  {
    Steps(s, LastIndex(|s|), draws)
  }

  /** `shuffleArray`: copies `items` (`[...array]`) and swaps elements of the
      copy, from the last index down to 1. The argument is a value, so the
      caller's items stay as they were. */
  method ShuffleArray<T>(items: seq<T>, draws: seq<real>) returns (shuffled: seq<T>)
    requires |items| <= |draws| + 1 && AreDraws(draws)
    ensures |shuffled| == |items|
    ensures multiset(shuffled) == multiset(items)
    ensures shuffled == FisherYates(items, draws)
  {
    var n := |items|;
    shuffled := items;
    var i := n - 1;
    while i > 0
      invariant n == 0 ==> i == -1
      invariant n > 0 ==> 0 <= i < n
      invariant |shuffled| == n
      invariant multiset(shuffled) == multiset(items)
      invariant n > 0 ==> Steps(shuffled, i, draws[n - 1 - i..]) == FisherYates(items, draws)
      decreases i
    {
      var j := SwapPartner(draws[n - 1 - i], i);
      ghost var before := shuffled;
      shuffled := shuffled[i := shuffled[j]][j := shuffled[i]];
      ShuffleTurn(before, shuffled, i, draws, items);
      i := i - 1;
    }
  }

  /** `shuffleArray` as the page calls it, on a JavaScript array: the result
      is a newly allocated array (never the argument itself), the method has
      no `modifies` clause so the argument is left as it was, and the result
      holds the shuffle of the argument's elements. */
  method ShuffleNewArray<T>(items: array<T>, draws: seq<real>) returns (shuffled: array<T>)
    requires items.Length <= |draws| + 1 && AreDraws(draws)
    ensures fresh(shuffled)
    ensures shuffled.Length == items.Length
    ensures multiset(shuffled[..]) == multiset(items[..])
    ensures shuffled[..] == FisherYates(items[..], draws)
  {
    var result := ShuffleArray(items[..], draws);
    shuffled := new T[|result|](k requires 0 <= k < |result| => result[k]);
    assert shuffled[..] == result;
  }

  /** One turn of the shuffle loop keeps both loop invariants: the elements
      are those of the input, and the remaining steps lead to the same shuffle. */
  lemma ShuffleTurn<T>(before: seq<T>, after: seq<T>, i: nat, draws: seq<real>, original: seq<T>)
    requires 0 < i < |before| <= |draws| + 1 && AreDraws(draws)
    requires after == Swap(before, i, SwapPartner(draws[|before| - 1 - i], i))
    requires multiset(before) == multiset(original)
    ensures multiset(after) == multiset(original)
    ensures Steps(after, i - 1, draws[|before| - i..]) == Steps(before, i, draws[|before| - 1 - i..])
  {
  }

  /** The cards shown: the first `min(6, |items|)` elements of the shuffle. */
  function Selection<T>(items: seq<T>, draws: seq<real>): (sel: seq<T>)
    requires |items| <= |draws| + 1 && AreDraws(draws)
    ensures |sel| == Min(DisplayCount, |items|)
  {
    FisherYates(items, draws)[..Min(DisplayCount, |items|)]
  }

  /** `shuffleArray(items).slice(0, GALLERY_DISPLAY_COUNT)`. */
  method SelectGallery<T>(items: seq<T>, draws: seq<real>) returns (selected: seq<T>)
    requires |items| <= |draws| + 1 && AreDraws(draws)
    ensures |selected| == Min(DisplayCount, |items|)
    ensures multiset(selected) <= multiset(items)
    ensures selected == Selection(items, draws)
  {
    var shuffled := ShuffleArray(items, draws);
    var m := Min(DisplayCount, |shuffled|);
    selected := shuffled[..m];
    PrefixSubMultiset(shuffled, m);
  }

  lemma PrefixSubMultiset<T>(s: seq<T>, m: nat)
    requires m <= |s|
    ensures multiset(s[..m]) <= multiset(s)
  {
    assert s == s[..m] + s[m..];
  }

  /** Every draw is a legal value of `Math.random`, and every partner in
      [0, i] is chosen by some draw: the choice is exactly "any j in [0, i]". */
  lemma SwapPartnerCovers(i: nat, j: nat)
    requires j <= i
    ensures IsDraw(j as real / (i + 1) as real)
    ensures SwapPartner(j as real / (i + 1) as real, i) == j
  {
  }

  lemma SwapPermutes<T>(s: seq<T>, i: nat, j: nat)
    requires i < |s| && j < |s|
    ensures multiset(Swap(s, i, j)) == multiset(s)
  {
  }

  lemma {:induction false} StepsPermutes<T>(s: seq<T>, i: nat, draws: seq<real>)
    requires i == 0 || i < |s|
    requires i <= |draws| && AreDraws(draws)
    ensures multiset(Steps(s, i, draws)) == multiset(s)
    decreases i
  {
    if i > 0 {
      var j := SwapPartner(draws[0], i);
      SwapPermutes(s, i, j);
      StepsPermutes(Swap(s, i, j), i - 1, draws[1..]);
    }
  }

  /** The shuffle is a permutation of its input. */
  lemma FisherYatesPermutes<T>(s: seq<T>, draws: seq<real>)
    requires |s| <= |draws| + 1 && AreDraws(draws)
    ensures |FisherYates(s, draws)| == |s|
    ensures multiset(FisherYates(s, draws)) == multiset(s)
  {
    StepsPermutes(s, LastIndex(|s|), draws);
  }

  /** Swapping commutes with picking: the shuffle only moves positions and
      never looks at the elements. */
  lemma {:induction false} StepsCommutesWithPick<T>(s: seq<T>, p: seq<nat>, i: nat, draws: seq<real>)
    requires InRange(p, |s|)
    requires i == 0 || i < |p|
    requires i <= |draws| && AreDraws(draws)
    ensures InRange(Steps(p, i, draws), |s|)
    ensures Steps(Pick(s, p), i, draws) == Pick(s, Steps(p, i, draws))
    decreases i
  {
    if i > 0 {
      var j := SwapPartner(draws[0], i);
      var q := Swap(p, i, j);
      assert InRange(q, |s|) by {
        forall k | 0 <= k < |q|
          ensures q[k] < |s|
        {
          if k == i { assert q[k] == p[j]; } else if k == j { assert q[k] == p[i]; } else { assert q[k] == p[k]; }
        }
      }
      assert Swap(Pick(s, p), i, j) == Pick(s, q);
      StepsCommutesWithPick(s, q, i - 1, draws[1..]);
    }
  }

  lemma {:induction false} StepsKeepsDistinct<T>(p: seq<T>, i: nat, draws: seq<real>)
    requires Distinct(p)
    requires i == 0 || i < |p|
    requires i <= |draws| && AreDraws(draws)
    ensures Distinct(Steps(p, i, draws))
    decreases i
  {
    if i > 0 {
      var j := SwapPartner(draws[0], i);
      var q := Swap(p, i, j);
      assert Distinct(q) by {
        // position k of q holds the element of p at Origin(k), and Origin is injective
        forall a, b | 0 <= a < b < |q|
          ensures q[a] != q[b]
        {
          var oa := if a == i then j else if a == j then i else a;
          var ob := if b == i then j else if b == j then i else b;
          assert q[a] == p[oa] && q[b] == p[ob];
          assert oa != ob;
        }
      }
      StepsKeepsDistinct(q, i - 1, draws[1..]);
    }
  }

  /** The selection is drawn without replacement: it takes no element more
      often than the input holds it. */
  lemma SelectionWithoutReplacement<T>(items: seq<T>, draws: seq<real>)
    requires |items| <= |draws| + 1 && AreDraws(draws)
    ensures multiset(Selection(items, draws)) <= multiset(items)
  {
    var shuffled := FisherYates(items, draws);
    FisherYatesPermutes(items, draws);
    PrefixSubMultiset(shuffled, Min(DisplayCount, |items|));
  }

  /** The selection takes `min(6, |items|)` distinct input positions: running
      the same draws over the positions 0 .. |items| - 1 yields positions that
      are pairwise different and that pick exactly the selected items. */
  lemma SelectionTakesDistinctPositions<T>(items: seq<T>, draws: seq<real>)
    requires |items| <= |draws| + 1 && AreDraws(draws)
    ensures var pos := Selection(Range(|items|), draws);
            |pos| == |Selection(items, draws)| == Min(DisplayCount, |items|)
            && Distinct(pos)
            && InRange(pos, |items|)
            && forall k :: 0 <= k < |pos| ==> Selection(items, draws)[k] == items[pos[k]]
  {
    var n := |items|;
    var r := Range(n);
    assert InRange(r, n);
    assert Pick(items, r) == items;
    StepsCommutesWithPick(items, r, LastIndex(n), draws);
    StepsKeepsDistinct(r, LastIndex(n), draws);
    var all := FisherYates(r, draws);
    var m := Min(DisplayCount, n);
    assert FisherYates(items, draws) == Pick(items, all);
  }
}

=== FILE: news_date.dfy ===
/** `formatDate`: the date of a news card is shown with every `-` replaced by
    `.`, turning `YYYY-MM-DD` into `YYYY.MM.DD`. */
module NewsDate {

  function Dotted(c: char): char {
    if c == '-' then '.' else c
  }

  /** `dateStr.replace(/-/g, '.')`: the global replace rewrites each hyphen
      and keeps every other character in place. */
  function FormatDate(s: string): (r: string)
    ensures |r| == |s|
    ensures forall k :: 0 <= k < |s| ==> r[k] == Dotted(s[k])
    ensures '-' !in r
  {
    if s == [] then [] else [Dotted(s[0])] + FormatDate(s[1..])
  }

  predicate IsDigit(c: char) {
    '0' <= c <= '9'
  }

  /** The `YYYY-MM-DD` shape the news data uses for dates. */
  predicate IsIsoDate(s: string) {
    |s| == 10 && s[4] == '-' && s[7] == '-'
    && forall k :: 0 <= k < 10 && k != 4 && k != 7 ==> IsDigit(s[k])
  }

  /** The `YYYY.MM.DD` shape shown on the card. */
  predicate IsDottedDate(s: string) {
    |s| == 10 && s[4] == '.' && s[7] == '.'
    && forall k :: 0 <= k < 10 && k != 4 && k != 7 ==> IsDigit(s[k])
  }

  /** The reverse rewrite, `.` back to `-`. */
  function Undotted(c: char): char {
    if c == '.' then '-' else c
  }

  function UnformatDate(s: string): (r: string)
    ensures |r| == |s|
    ensures forall k :: 0 <= k < |s| ==> r[k] == Undotted(s[k])
  {
    seq(|s|, k requires 0 <= k < |s| => Undotted(s[k]))
  }

  /** An ISO date keeps its year, month and day and gets dots in place of
      the two hyphens: `YYYY-MM-DD` becomes `YYYY.MM.DD`. */
  lemma FormatIsoDate(s: string)
    requires IsIsoDate(s)
    ensures IsDottedDate(FormatDate(s))
    ensures FormatDate(s) == s[..4] + "." + s[5..7] + "." + s[8..]
  {
  }

  /** A date that held no dot is recovered from its formatted form: the
      rewrite loses nothing but the distinction between `-` and `.`. */
  lemma FormatDateRoundTrip(s: string)
    requires '.' !in s
    ensures UnformatDate(FormatDate(s)) == s
  {
  }

  /** Formatting an already formatted date changes nothing. */
  lemma FormatDateIdempotent(s: string)
    ensures FormatDate(FormatDate(s)) == FormatDate(s)
  {
  }

  /** The date from the news data example: `2024-01-05` is shown as
      `2024.01.05`. */
  lemma FormatDateExample()
    ensures FormatDate("2024-01-05") == "2024.01.05"
  {
  }
}
